=== FILE: README.md ===
# Quantum random integers: entropy cache and range reduction

This project is a Dafny model of the Go package `quantumrng`, with proofs
about the model. The package hands out random integers. It draws them from
entropy fetched in batches from a remote quantum random-number service.

- **The cache.** One fetch asks the service for `CacheSize` hex-encoded
  records. Each record decodes to 1024 bytes. `RefreshCache` writes record i
  into bytes `[i*1024, (i+1)*1024)` of a `CacheLimit`-byte buffer and resets
  the cursor `CacheStartIndex` to 0.
- **Taking bytes.** `GetBytesFromCache(n)` serves the n bytes at the cursor
  and advances it. First it refills if the cursor is unset (-1), is past the
  end, or the request would reach the buffer's last byte.
- **Rounding up.** `ApproximatePowerOf2` rounds up to a power of two by
  smearing the highest set bit.
- **Random integers.** `GetRandomInt(min, max)` does four things:
  1. It derives a byte width from the rounded `max`.
  2. It takes that many bytes.
  3. It pads them to an 8-byte big-endian word.
  4. It reduces the word with `% (max - min + 1)` and adds `min`.

The model is a pure state machine. A `Cache` value (buffer and cursor) goes
into each transition, and the transition returns a new one.

- **The service.** Its answer is a parameter: the `data` strings, or an
  error. Runs of several takes get it as a function from the request number
  to the answer.
- **Sizes.** They are symbolic: `Geometry(recordCount, recordSize)`.
  `DEFAULT` is the package's 1024 × 1024.
- **Go's 64-bit `int`.** It is modelled with explicit wrap-around
  (`Bits.WrapInt64`). This covers the refill test's `CacheStartIndex+quantity`,
  the rounding's final `+ 1`, and the reduction's `max - min + 1` and `+ min`.
- **Go's `%`.** It truncates toward zero, and is modelled as
  `RandomInt.GoRem`.
- **Runtime panics.** They are outcomes, not preconditions:
  - an index or slice out of range gives `Err(OutOfRange)`;
  - a zero divisor gives `Err(DivideByZero)`.

Modules:

| file | module | contents |
|---|---|---|
| outcomes.dfy | `Outcomes` | error kinds, `Result`, `Option` |
| bytes.dfy | `Bytes` | big-endian reading and writing of byte strings |
| hex.dfy | `Hex` | `hex.DecodeString` as a decoder, plus an encoder as its inverse |
| bits.dfy | `Bits` | 64-bit wrap-around, powers of two, shifts, or, bit length, `Log2` |
| power_of_two.dfy | `PowerOfTwo` | `ApproximatePowerOf2` |
| cache.dfy | `EntropyCache` | the cache globals, `RefreshCache`, `GetBytesFromCache`, runs of takes |
| random_int.dfy | `RandomInt` | `GetRandomInt`, its byte width and reduction, the corrected width |

## Model

| member | source | states |
|---|---|---|
| EntropyCache.DefaultSizes | quantumrng.go:13-15 | With the compiled sizes, 1024 records of 1024 bytes, the buffer is `CacheLimit` = 1 MiB. The starting cache of that size is valid. |
| EntropyCache.Initial | quantumrng.go:12-17 | At start the buffer is `CacheLimit` zero bytes and the cursor is -1, "never filled". This state satisfies the cache invariant, whose buffer length is a Go `int`. |
| EntropyCache.FillFrom | quantumrng.go:55-66 | The refill loop from record i succeeds exactly when every remaining record is present, is valid hex and has at least a record's worth of bytes. On success each segment holds its record's first bytes and the cursor is 0. On failure the error is invalid hex or a panic and the cursor is untouched. Bytes below segment i are never changed. |
| EntropyCache.FillFromStopsAtFirstUnusable | quantumrng.go:55-59 | The loop stops at the first unusable record. It reports invalid hex when that record is present but does not decode, and an out-of-range panic when it is missing or too short. |
| EntropyCache.Refill | quantumrng.go:49-68 | A failed fetch returns its error and leaves the cache as it was. A refill succeeds exactly when the fetch does and every record is usable. Success sets the cursor to 0 with segment i holding record i. Failure leaves the cursor where it was. The invariant is kept either way. |
| EntropyCache.RefillPlacesRecordBytes | quantumrng.go:55-66 | After a successful refill, buffer byte `i*recordSize + j` is byte j of the decoded record i. |
| EntropyCache.RefillIgnoresOldBuffer | quantumrng.go:55-66 | A successful refill overwrites the whole buffer: the old contents do not affect the result. |
| EntropyCache.FillFromIgnoresUnwritten | quantumrng.go:55-64 | Two caches that agree on the segments already written end the successful loop equal. |
| EntropyCache.Take | quantumrng.go:70-84 | Without a refill, the take returns `buffer[cursor .. cursor+n)` and the cursor becomes cursor + n. The buffer is unchanged, and the slice ends before the buffer's last byte. After a successful refill it returns the first n bytes of the fresh buffer with the cursor at n, or panics when n exceeds the buffer. When the cursor is below `CacheLimit` and the 64-bit sum `cursor + n` wraps, the refill test sees a negative end, and the slice panics with the cache unchanged. At a cursor equal to `CacheLimit` the buffer is refilled first, so the same quantity panics on the fresh buffer with the cursor at 0. A failed refill's error is returned. Served slices have exactly n bytes, and the invariant is kept. |
| EntropyCache.TakeWrapsOnHugeQuantity | quantumrng.go:71-80 | With a cursor in 0 .. CacheLimit-1 and a quantity that is a Go `int` but carries `cursor + n` past the largest `int`, no refill happens, the service is not asked, and the slice panics with the cache as it was. |
| EntropyCache.TakeAdvancesCursor | quantumrng.go:71-81 | A successful take leaves the cursor at (0 after a refill, otherwise the old cursor) + n. A failed take leaves the cursor in place unless n exceeds the buffer. |
| EntropyCache.TakeIgnoresProviderUnlessNeeded | quantumrng.go:71-78 | The service is consulted only when the refill condition holds. Otherwise its answer makes no difference. |
| EntropyCache.TakeReportsFetchFailure | quantumrng.go:74-77 | A take that must refill and whose fetch fails returns the fetch error and leaves the cache exactly as it was. |
| EntropyCache.Serve | quantumrng.go:70-84 | A run of takes that does not fail serves one slice per request. A run that fails serves fewer. Each take asks the service at most once. |
| EntropyCache.ServeWithinBuffer | quantumrng.go:71-81 | Takes that together stop before the buffer's last byte never ask the service. Joined, they are exactly the buffer from the cursor on, and the cursor ends advanced by their total. |
| EntropyCache.ServeAfterRefillingTake | quantumrng.go:71-81 | A run whose first take refills, and whose later takes fit in the fresh buffer, asks the service once. Joined, the served bytes are a prefix of that buffer. |
| EntropyCache.ColdStartFetchesOnce | quantumrng.go:71-81 | From a never-filled cache, a run that fits before the last byte asks the service exactly once. It serves the fresh buffer from its start. |
| EntropyCache.ColdStartFailure | quantumrng.go:72-77 | From a never-filled cache whose first fetch fails, the run stops at once with that error and serves nothing. |
| EntropyCache.BoundaryScenario | quantumrng.go:70-84 | With one 4-byte record `00010203`, take(2) from cold serves bytes 0 and 1 with the cursor at 2. The next take(3) refills, since 2 + 3 reaches past the last byte, and serves bytes 0, 1, 2 with the cursor at 3. |
| Hex.Decode | quantumrng.go:56-59 | Decoding succeeds exactly on even-length text made only of hex digits, and yields half as many bytes as characters. |
| Hex.DecodeEncode | quantumrng.go:56 | Decoding the lower-case encoding of any bytes gives those bytes back. |
| PowerOfTwo.ApproximatePowerOf2 | quantumrng.go:86-95 | The result is a 64-bit int. 0 maps to 0. For 1 ≤ x ≤ 2^32 the result is a power of two p with x ≤ p < 2x. |
| PowerOfTwo.SmearValue | quantumrng.go:87-92 | Below 2^32 the five or-with-shift steps turn v into 2^BitLength(v) - 1, all ones below its highest bit. |
| PowerOfTwo.RoundUpFacts | quantumrng.go:87-94 | The final `+ 1` overflows only when the smeared value is 2^63 - 1. Below 2^32, smear + 1 is 2^BitLength(v), a power of two in (v, 2(v+1)). |
| PowerOfTwo.RoundsUpToNextPowerOfTwo | quantumrng.go:86-95 | For 1 ≤ x ≤ 2^32 the result is 2^BitLength(x - 1), at most 2^32. |
| PowerOfTwo.IsLeastPowerOfTwoAtOrAbove | quantumrng.go:86-95 | Every power of two at or above x is at least the result: it is the least one. |
| PowerOfTwo.PowersOfTwoAreFixed | quantumrng.go:86-95 | Every power of two up to 2^32 is its own rounding. |
| PowerOfTwo.Idempotent | quantumrng.go:86-95 | Rounding twice equals rounding once on 0 .. 2^32. |
| RandomInt.GoRem | quantumrng.go:108 | Go's remainder completes the division identity `a == (a / b) * b + a % b` with the truncated quotient. It is smaller than the divisor in magnitude and has the sign of the dividend, so it is fully determined for either sign of the divisor. |
| RandomInt.GoDivision | quantumrng.go:108 | The truncated quotient and the dividend-signed remainder put a back together, for every sign of a and b. |
| RandomInt.GoRemIgnoresDivisorSign | quantumrng.go:108 | A divisor of either sign gives the same remainder. This is the case min > max + 1, where `max - min + 1` is negative. |
| RandomInt.GoRemNonNegative | quantumrng.go:108 | On a non-negative dividend and positive divisor Go's `%` agrees with the Euclidean one. |
| RandomInt.RoundedExponent | quantumrng.go:98 | `Log2` of the rounded max is exact (its argument is a power of two) and equals BitLength(max - 1) ≤ 32. |
| RandomInt.ByteWidth | quantumrng.go:98 | The byte width is between 1 and 4 for 0 ≤ max ≤ 2^32. |
| RandomInt.ByteWidthByExponent | quantumrng.go:98 | For positive max, the width is BitLength(max - 1) / 8 truncated, at least 1, with BitLength(max - 1) ≤ 32. |
| RandomInt.ExponentBoundary | quantumrng.go:98 | BitLength(max - 1) ≤ n exactly when max ≤ 2^n. |
| RandomInt.ByteWidthTable | quantumrng.go:98 | The width is 1 up to 2^15, 2 up to 2^23, 3 up to 2^31 and 4 above. |
| RandomInt.PaddedValue | quantumrng.go:104-106 | Left-padding to 8 bytes with zeros leaves the big-endian value unchanged, and that value is below 256^width. |
| RandomInt.RangeSizeZero | quantumrng.go:108 | For 0 ≤ max ≤ 2^32 the 64-bit divisor `max - min + 1` is zero exactly when min = max + 1. |
| RandomInt.GoRemAtMost | quantumrng.go:108 | Go's remainder of a non-negative dividend lies between 0 and the dividend, for a divisor of either sign. |
| RandomInt.ReduceInRange | quantumrng.go:108 | For min ≤ max the 64-bit divisor is zero only for the full range INT64_MIN .. INT64_MAX. Otherwise a non-negative 64-bit n reduces without wrapping into [min, max], also when `max - min + 1` overflows to a negative divisor. |
| RandomInt.Reduce | quantumrng.go:108 | `n % size + min` is a 64-bit int. For n ≥ 0, size > 0 and no overflow it lies in [min, min + size). |
| RandomInt.Derive | quantumrng.go:104-108 | The derived integer is a 64-bit int. For fewer than 8 bytes and min ≤ max it lies in [min, max], whether or not `max - min + 1` overflows. |
| RandomInt.DeriveValue | quantumrng.go:104-108 | Without overflow the derived integer is `BigEndian(bytes) % (max - min + 1) + min`. |
| RandomInt.GetRandomInt | quantumrng.go:97-109 | A call keeps the cache invariant. When min ≤ max, a returned value lies in [min, max], also when `max - min + 1` overflows 64 bits. A call fails exactly when the take fails or min = max + 1. |
| RandomInt.ConsumesByteWidth | quantumrng.go:98-102 | When the take succeeds, the cursor moves on by exactly the byte width, from the old cursor or from 0 after a refill. A failure reports the take's error, or division by zero after a successful take. A failed take that fits the buffer leaves the cursor unchanged. |
| RandomInt.GetRandomIntValue | quantumrng.go:99-108 | The returned value is the served bytes' big-endian value reduced modulo the range size, plus min. |
| RandomInt.NarrowWidthMissesLargeValues | quantumrng.go:98-108 | As written, a returned value is always below min + 256^width. |
| RandomInt.DeriveBelow | quantumrng.go:104-108 | For min ≤ max a value derived from k bytes is below min + 256^k, whether or not the range size overflows. |
| RandomInt.ThousandGetsOneByte | quantumrng.go:98 | For max = 1000 the width is a single byte, whose values stop at 255. |
| RandomInt.CoveringWidth | quantumrng.go:98 | The corrected width is the fewest bytes, at least one, whose values reach max. |
| RandomInt.GetRandomIntCorrected | quantumrng.go:97-109 | With the corrected width a call keeps the invariant, returns values in [min, max] whenever min ≤ max, and fails exactly when the take fails or min = max + 1. |
| RandomInt.ReachesWithWidth | quantumrng.go:104-108 | With any width under 8 bytes that reaches max - min, the encoding of v - min derives to v. |
| RandomInt.CorrectedReachesEveryValue | quantumrng.go:98-108 | With the corrected width every v in a non-negative range [min, max] is derived from some draw: the encoding of v - min. |
| RandomInt.CorrectedCallReturns | quantumrng.go:97-109 | A take that serves the encoding of v - min makes the corrected call return exactly v. |

## Left out

- `FetchQuantumRandomHex` and `AnuResponse` (quantumrng.go:19-47) are an HTTP request plus JSON decoding. The fetch is a parameter of the subset type `Response`: either the `data` strings or `FetchFailed`, and no other error. The URL, the JSON fields other than `data`, and the `success` flag are not modelled.
- The package variables (quantumrng.go:12-17) are one immutable `Cache` value passed through each call. The code has no locking, so concurrent callers are not modelled.
- The buffer and segment sizes are parameters, `Geometry`. The inner copy loop's literal 1024 is `recordSize`, and `DEFAULT` is the compiled 1024 × 1024.
- A record that is missing or shorter than 1024 bytes makes Go panic inside the refill loop. The model returns `Err(OutOfRange)` and leaves the cursor alone, like an error return. The bytes the panicking record had already copied are not modelled. Earlier records' segments are overwritten, as in Go.
- A failed refill that returns an error leaves the cursor unchanged. Segments written before the failing record stay overwritten, as in the code.
- `GetBytesFromCache` returns a slice that aliases the buffer. The model returns the bytes by value, so a later refill cannot change bytes already returned.
- `math.Log2` and `math.Max` (quantumrng.go:98) are floating point. The model uses the integer `Log2`, which is exact because the argument is a power of two for 1 ≤ max ≤ 2^32. For max = 0 the rounded value is 0, Go's logarithm is minus infinity, and `math.Max` yields 1; the model gives width 1.
- RandomInt.GetRandomInt: requires 0 ≤ max ≤ 2^32. Above 2^32 the rounding is not a power of two, so the width depends on floating-point rounding of a non-integral logarithm. Negative max is outside the model, because `Or` and `Shr` are modelled on non-negative integers only. For -(2^32) + 2 ≤ max ≤ -1, the arithmetic shifts smear `max - 1` to -1, so the rounding is 0 and the width is 1, as for max = 0. For some smaller max, such as -(2^32) + 1 or the most negative `int`, the rounding is negative. Its logarithm is then NaN, and NaN's conversion to `int` is platform-specific.
- RandomInt.GetRandomInt: the range guarantee is stated for min ≤ max only. The code does not reject min > max: min = max + 1 panics in `%` after the bytes were taken, and other min > max return a value that the model computes but does not characterise.
- EntropyCache.Take: the quantity is a `nat`, so a negative Go quantity is outside the model. In Go it panics on the slice at quantumrng.go:80, after a refill when the cursor calls for one. The only caller, `GetRandomInt`, passes 1 to 4. Quantities beyond the largest `int` are not Go values; the model still wraps the refill test for them and rejects the slice.
- PowerOfTwo.ApproximatePowerOf2: the power-of-two properties are stated only for inputs up to 2^32. Beyond that, five shifts no longer reach every lower bit. Negative inputs are outside the model.
- Uniformity and modulo bias are statistical properties, not functional ones, and are not modelled.

## Findings

| source | as written | input that shows it | evidently intended | confidence | as-written member | corrected member |
|---|---|---|---|---|---|---|
| quantumrng.go:98 | The byte width is the truncated eighth of the rounded max's exponent k, at least 1. Its values stop at 256^width - 1 = 2^(8·max(⌊k/8⌋, 1)) - 1, which is below max whenever max exceeds 256^width - 1. | `GetRandomInt(0, 1000)`: max rounds to 1024 = 2^10, 10 / 8 truncates to 1 byte, so only 0 .. 255 can come out and 256 .. 1000 never do. | Enough bytes to reach max, so that for 0 ≤ min every value of [min, max] can be drawn. The width still follows max alone, as the code sizes it. For negative min even the corrected width can miss values: `GetRandomIntCorrected(-1000, 10)` draws one byte. | medium; not executed | RandomInt.NarrowWidthMissesLargeValues | RandomInt.CorrectedReachesEveryValue |

The corrected width is `RandomInt.CoveringWidth`, used by
`RandomInt.GetRandomIntCorrected`.

### Behaviour a caller might expect that the code does not provide

The model follows the code in each case:

- **Decode failures.** A record that fails to decode is returned as
  `hex.DecodeString`'s own error, modelled as `InvalidHex`, not as a fetch
  error. A missing or short record is not detected: the copy loop panics.
- **Invalid ranges.** A range with min > max, or with max < 1, is not rejected:
  - min = max + 1 panics in `%`;
  - other such ranges with max ≥ 0 return a value.
- **The full 64-bit range.** For min = INT64_MIN and max = INT64_MAX the
  divisor `max - min + 1` wraps to 0, and `%` panics. Any other min ≤ max
  stays within [min, max], even when the divisor wraps negative.
- **Huge quantities.** A request whose end `CacheStartIndex+quantity` passes
  the largest `int` wraps negative. When the cursor is below `CacheLimit`, no
  refill happens and the slice panics with the cache unchanged. At a cursor
  of `CacheLimit` the refill still runs, and the slice then panics on the
  fresh buffer.
- **Failed refills.** A failed refill does not mark the cache unfilled. The
  cursor stays where it was, and the buffer may be partly overwritten.

=== FILE: bits.dfy ===
/** Go's 64-bit `int` arithmetic as used by the entropy pipeline: powers of two,
    right shift and bitwise or on non-negative values, and two's-complement
    wrap-around. Bits are read off with `BitOf`, which is what the proofs about
    bit smearing are phrased in. */
module Bits {

  const INT64_MIN: int := -0x8000_0000_0000_0000
  const INT64_MAX: int := 0x7fff_ffff_ffff_ffff
  const TWO_64: nat := 0x1_0000_0000_0000_0000

  /** True if x is representable in Go's 64-bit `int` */
  predicate IsInt64(x: int) {
    INT64_MIN <= x <= INT64_MAX
  }

  /** Reduces a mathematical integer to the 64-bit two's-complement value with
      the same low 64 bits, as Go's `int` arithmetic does on overflow */
  function WrapInt64(x: int): (r: int)
    ensures IsInt64(r)
    ensures (r - x) % TWO_64 == 0
    ensures IsInt64(x) ==> r == x
  {
    var u := x % TWO_64;
    if u <= INT64_MAX then u else u - TWO_64
  }

  function Pow2(k: nat): (p: nat)
    ensures p >= 1
  {
    if k == 0 then 1 else 2 * Pow2(k - 1)
  }

  lemma {:induction false} Pow2Add(a: nat, b: nat)
    ensures Pow2(a + b) == Pow2(a) * Pow2(b)
  {
    if b > 0 {
      Pow2Add(a, b - 1);
    }
  }

  lemma {:induction false} Pow2Monotone(a: nat, b: nat)
    requires a <= b
    ensures Pow2(a) <= Pow2(b)
  {
    if a < b {
      Pow2Monotone(a, b - 1);
    }
  }

  lemma Pow2Literals()
    ensures Pow2(8) == 0x100
    ensures Pow2(16) == 0x1_0000
    ensures Pow2(32) == 0x1_0000_0000
    ensures Pow2(63) == INT64_MAX + 1
  {
    Pow2Add(8, 8);
    Pow2Add(16, 16);
    Pow2Add(32, 31);
    Pow2Add(16, 15);
  }

  /** `a >> s` on a non-negative Go integer: s halvings, rounding down */
  function Shr(a: nat, s: nat): (r: nat)
    ensures r <= a
  {
    if s == 0 then a else Shr(a / 2, s - 1)
  }

  /** `a | b` on non-negative Go integers, built up from the low bit */
  function Or(a: nat, b: nat): nat
    decreases a + b
  {
    if a == 0 && b == 0 then 0
    else 2 * Or(a / 2, b / 2) + (if a % 2 == 1 || b % 2 == 1 then 1 else 0)
  }

  /** Bit i of a non-negative integer, 0 or 1 */
  function BitOf(a: nat, i: nat): nat {
    if i == 0 then a % 2 else BitOf(a / 2, i - 1)
  }

  /** Number of significant bits: the least n with a < 2^n */
  function BitLength(a: nat): nat {
    if a == 0 then 0 else 1 + BitLength(a / 2)
  }

  lemma {:induction false} BitLengthBounds(a: nat)
    ensures a < Pow2(BitLength(a))
    ensures a > 0 ==> Pow2(BitLength(a) - 1) <= a
    ensures a > 0 ==> BitOf(a, BitLength(a) - 1) == 1
  {
    if a > 0 {
      BitLengthBounds(a / 2);
    }
  }

  lemma {:induction false} BitLengthAtMost(a: nat, n: nat)
    requires a < Pow2(n)
    ensures BitLength(a) <= n
  {
    if a > 0 {
      BitLengthAtMost(a / 2, n - 1);
    }
  }

  lemma {:induction false} OrBit(a: nat, b: nat, i: nat)
    ensures BitOf(Or(a, b), i) == (if BitOf(a, i) == 1 || BitOf(b, i) == 1 then 1 else 0)
    decreases i
  {
    if i > 0 && !(a == 0 && b == 0) {
      OrBit(a / 2, b / 2, i - 1);
    } else if i > 0 {
      ZeroBit(i);
    }
  }

  lemma {:induction false} ZeroBit(i: nat)
    ensures BitOf(0, i) == 0
  {
    if i > 0 {
      ZeroBit(i - 1);
    }
  }

  lemma {:induction false} OrBound(a: nat, b: nat, n: nat)
    requires a < Pow2(n) && b < Pow2(n)
    ensures Or(a, b) < Pow2(n)
    decreases a + b
  {
    if !(a == 0 && b == 0) {
      OrBound(a / 2, b / 2, n - 1);
    }
  }

  lemma {:induction false} ShrBit(a: nat, s: nat, i: nat)
    ensures BitOf(Shr(a, s), i) == BitOf(a, i + s)
  {
    if s > 0 {
      ShrBit(a / 2, s - 1, i);
    }
  }

  /** A number below 2^n whose n low bits are all set is 2^n - 1 */
  lemma {:induction false} AllOnes(a: nat, n: nat)
    requires a < Pow2(n)
    requires forall i :: 0 <= i < n ==> BitOf(a, i) == 1
    ensures a == Pow2(n) - 1
  {
    if n > 0 {
      forall i | 0 <= i < n - 1
        ensures BitOf(a / 2, i) == 1
      {
        assert BitOf(a, i + 1) == 1;
      }
      AllOnes(a / 2, n - 1);
      assert BitOf(a, 0) == 1;
    }
  }

  /** Powers of two, recognised by repeated halving */
  predicate IsPowerOfTwo(p: int)
    decreases if p < 0 then 0 else p
  {
    p == 1 || (p >= 2 && p % 2 == 0 && IsPowerOfTwo(p / 2))
  }

  /** The exponent of a power of two; Go's `math.Log2` is exact on these */
  function Log2(p: int): (k: nat)
    requires IsPowerOfTwo(p)
    ensures Pow2(k) == p
    decreases if p < 0 then 0 else p
  {
    if p == 1 then 0 else 1 + Log2(p / 2)
  }

  lemma {:induction false} Pow2IsPowerOfTwo(k: nat)
    ensures IsPowerOfTwo(Pow2(k))
    ensures Log2(Pow2(k)) == k
  {
    if k > 0 {
      Pow2IsPowerOfTwo(k - 1);
    }
  }
}

=== FILE: bytes.dfy ===
/** Bytes and big-endian unsigned integers, as `encoding/binary` reads them. */
module Bytes {

  type Byte = b: int | 0 <= b < 256

  function Pow256(n: nat): (p: nat)
    ensures p >= 1
  {
    if n == 0 then 1 else 256 * Pow256(n - 1)
  }

  lemma {:induction false} Pow256Monotone(a: nat, b: nat)
    requires a <= b
    ensures Pow256(a) <= Pow256(b)
  {
    if a < b {
      Pow256Monotone(a, b - 1);
    }
  }

  function Zeros(n: nat): (z: seq<Byte>)
    ensures |z| == n
    ensures forall i :: 0 <= i < n ==> z[i] == 0
  {
    seq(n, _ => 0)
  }

  /** The unsigned value of bs read most significant byte first */
  function BigEndian(bs: seq<Byte>): nat {
    if |bs| == 0 then 0 else 256 * BigEndian(bs[..|bs| - 1]) + bs[|bs| - 1]
  }

  /** n bytes hold values below 256^n */
  lemma {:induction false} BigEndianBound(bs: seq<Byte>)
    ensures BigEndian(bs) < Pow256(|bs|)
  {
    if |bs| > 0 {
      BigEndianBound(bs[..|bs| - 1]);
    }
  }

  /** Leading zero bytes do not change the value */
  lemma {:induction false} LeadingZeros(n: nat, bs: seq<Byte>)
    ensures BigEndian(Zeros(n) + bs) == BigEndian(bs)
    decreases |bs|
  {
    if |bs| == 0 {
      AllZero(n);
      assert Zeros(n) + bs == Zeros(n);
    } else {
      LeadingZeros(n, bs[..|bs| - 1]);
      assert (Zeros(n) + bs)[..|Zeros(n) + bs| - 1] == Zeros(n) + bs[..|bs| - 1];
    }
  }

  lemma {:induction false} AllZero(n: nat)
    ensures BigEndian(Zeros(n)) == 0
  {
    if n > 0 {
      AllZero(n - 1);
      assert Zeros(n)[..n - 1] == Zeros(n - 1);
    }
  }

  /** The w-byte big-endian encoding of n modulo 256^w */
  function Encode(n: nat, w: nat): (bs: seq<Byte>)
    ensures |bs| == w
  {
    if w == 0 then [] else Encode(n / 256, w - 1) + [n % 256]
  }

  lemma {:induction false} DecodeEncode(n: nat, w: nat)
    requires n < Pow256(w)
    ensures BigEndian(Encode(n, w)) == n
  {
    if w > 0 {
      DecodeEncode(n / 256, w - 1);
      var bs := Encode(n, w);
      assert bs[..w - 1] == Encode(n / 256, w - 1);
    }
  }
}

=== FILE: cache.dfy ===
/** The entropy cache: a fixed-length byte buffer filled from a batch of
    hex-encoded records, and a cursor marking the next unread byte, with -1
    meaning "never filled". Go keeps both in package variables; here they are
    one immutable `Cache` value threaded through pure transitions, and the
    network fetch is the `Response` the provider would give if asked. */
module EntropyCache {
  import opened Outcomes
  import opened Bytes
  import opened Bits
  import Hex

  /** How many records one fetch asks for (Go's `CacheSize`) and how many
      bytes each record contributes; the buffer holds their product
      (`CacheLimit`) */
  datatype Geometry = Geometry(recordCount: nat, recordSize: nat) {
    function Limit(): nat {
      recordCount * recordSize
    }

    /** Where segment i begins: the bytes of record i go at Start(i) onwards */
    function Start(i: nat): (o: nat)
      requires i <= recordCount
      ensures o == i * recordSize && o <= Limit()
    {
      MulMonotone(i, recordCount, recordSize);
      i * recordSize
    }
  }

  /** The sizes the package is compiled with: 1024 records of 1024 bytes */
  const DEFAULT: Geometry := Geometry(1024, 1024)

  /** With the compiled sizes the buffer is 1 MiB, and the starting state
      is a valid never-filled cache of that size */
  lemma DefaultSizes()
    ensures DEFAULT.Limit() == 0x10_0000
    ensures Valid(DEFAULT, Initial(DEFAULT)) && |Initial(DEFAULT).buffer| == 0x10_0000
  {
  }

  /** Cursor value of a cache that has never been filled */
  const UNFILLED: int := -1

  datatype Cache = Cache(buffer: seq<Byte>, cursor: int)

  /** The provider's answer to one request: the `data` strings, or the
      failure of the request or of its JSON body */
  type Response = r: Result<seq<string>> | r.Err? ==> r.error == FetchFailed
    witness Ok([])

  /** A transition's new cache together with what it returned */
  datatype Step<T> = Step(cache: Cache, result: Result<T>)

  /** The buffer has its fixed length, which is a Go `int`, and the cursor
      is unset or within it */
  predicate Valid(g: Geometry, c: Cache) {
    && g.Limit() <= INT64_MAX
    && |c.buffer| == g.Limit()
    && (c.cursor == UNFILLED || 0 <= c.cursor <= g.Limit())
  }

  /** The state at program start: a zeroed buffer, never filled */
  function Initial(g: Geometry): (c: Cache)
    requires g.Limit() <= INT64_MAX
    ensures Valid(g, c)
    ensures c.cursor == UNFILLED
  {
    Cache(Zeros(g.Limit()), UNFILLED)
  }

  lemma SegmentFits(g: Geometry, i: nat)
    requires i < g.recordCount
    ensures i * g.recordSize + g.recordSize == (i + 1) * g.recordSize <= g.Limit()
  {
    assert (i + 1) * g.recordSize <= g.recordCount * g.recordSize by {
      MulMonotone(i + 1, g.recordCount, g.recordSize);
    }
  }

  lemma MulMonotone(a: nat, b: nat, m: nat)
    requires a <= b
    ensures a * m <= b * m
  {}

  /** Bytes [i * recordSize, (i + 1) * recordSize) of a buffer: where record i goes */
  function Segment(g: Geometry, buffer: seq<Byte>, i: nat): (s: seq<Byte>)
    requires |buffer| == g.Limit() && i < g.recordCount
    ensures |s| == g.recordSize
  {
    SegmentFits(g, i);
    buffer[i * g.recordSize .. (i + 1) * g.recordSize]
  }

  lemma SegmentAt(g: Geometry, buffer: seq<Byte>, i: nat, j: nat)
    requires |buffer| == g.Limit() && i < g.recordCount && j < g.recordSize
    ensures i * g.recordSize + j < g.Limit()
    ensures Segment(g, buffer, i)[j] == buffer[i * g.recordSize + j]
  {
    SegmentFits(g, i);
  }

  /** The inner loop of the refill: the first recordSize bytes of a decoded
      record overwrite segment i and nothing else */
  function WriteRecord(g: Geometry, buffer: seq<Byte>, i: nat, bytes: seq<Byte>): (b: seq<Byte>)
    requires |buffer| == g.Limit() && i < g.recordCount && |bytes| >= g.recordSize
    ensures |b| == |buffer|
    ensures Segment(g, b, i) == bytes[..g.recordSize]
    ensures forall m :: 0 <= m < g.Start(i) ==> b[m] == buffer[m]
    ensures forall m :: g.Start(i + 1) <= m < |b| ==> b[m] == buffer[m]
  {
    SegmentFits(g, i);
    var lo, hi := i * g.recordSize, (i + 1) * g.recordSize;
    var b := buffer[..lo] + bytes[..g.recordSize] + buffer[hi..];
    assert b[lo..hi] == bytes[..g.recordSize];
    b
  }

  /** Record k of a response decoded, if it is there and is valid hex */
  function Decoded(records: seq<string>, k: nat): Option<seq<Byte>> {
    if k < |records| then Hex.Decode(records[k]) else None
  }

  /** Record k is there, is valid hex, and holds at least a record's worth of
      bytes: the refill loop gets through it without an error or a panic */
  predicate Usable(g: Geometry, records: seq<string>, k: nat) {
    Decoded(records, k).Some? && |Decoded(records, k).value| >= g.recordSize
  }

  /** The bytes record k contributes to the buffer: the first recordSize
      bytes of its decoding (empty when there is no such decoding) */
  function RecordBytes(g: Geometry, records: seq<string>, k: nat): seq<Byte> {
    match Decoded(records, k)
    case Some(bytes) => if |bytes| >= g.recordSize then bytes[..g.recordSize] else bytes
    case None => []
  }

  /** The outer loop of the refill from record i on. On success every segment
      holds its record and the cursor becomes 0. At the first record that is
      missing, is not hex or is too short the loop stops, with the segments
      before it already overwritten and the cursor untouched. */
  function FillFrom(g: Geometry, c: Cache, records: seq<string>, i: nat): (r: Step<()>)
    requires |c.buffer| == g.Limit() && i <= g.recordCount
    ensures |r.cache.buffer| == g.Limit()
    ensures r.result.Ok? <==> forall k :: i <= k < g.recordCount ==> Usable(g, records, k)
    ensures r.result.Ok? ==> r.cache.cursor == 0
    ensures r.result.Ok? ==> forall k :: i <= k < g.recordCount ==>
              Segment(g, r.cache.buffer, k) == RecordBytes(g, records, k)
    ensures r.result.Err? ==>
              && (r.result.error == InvalidHex || r.result.error == OutOfRange)
              && r.cache.cursor == c.cursor
    ensures forall m :: 0 <= m < g.Start(i) ==> r.cache.buffer[m] == c.buffer[m]
    decreases g.recordCount - i
  {
    if i == g.recordCount then
      Step(Cache(c.buffer, 0), Ok(()))
    else if i >= |records| then
      assert !Usable(g, records, i);
      Step(c, Err(OutOfRange))
    else
      match Hex.Decode(records[i])
      case None =>
        assert !Usable(g, records, i);
        Step(c, Err(InvalidHex))
      case Some(bytes) =>
        if |bytes| < g.recordSize then
          assert !Usable(g, records, i);
          Step(c, Err(OutOfRange))
        else
          assert Usable(g, records, i);
          var written := WriteRecord(g, c.buffer, i, bytes);
          var r := FillFrom(g, Cache(written, c.cursor), records, i + 1);
          FillFromStep(g, c, written, r.cache.buffer, i);
          r
  }

  /** Segment i written before the loop moves on survives the rest of it */
  lemma FillFromStep(g: Geometry, c: Cache, written: seq<Byte>, after: seq<Byte>, i: nat)
    requires |c.buffer| == g.Limit() && |written| == g.Limit() && |after| == g.Limit()
    requires i < g.recordCount
    requires forall m :: 0 <= m < g.Start(i + 1) ==> after[m] == written[m]
    requires forall m :: 0 <= m < g.Start(i) ==> written[m] == c.buffer[m]
    ensures Segment(g, after, i) == Segment(g, written, i)
    ensures forall m :: 0 <= m < g.Start(i) ==> after[m] == c.buffer[m]
  {
    SegmentFits(g, i);
  }

  /** The refill loop stops at the first unusable record, and names why:
      invalid hex when the record is there but does not decode, a panic when
      it is missing or too short */
  lemma {:induction false} FillFromStopsAtFirstUnusable(g: Geometry, c: Cache, records: seq<string>, i: nat, j: nat)
    requires |c.buffer| == g.Limit() && i <= j < g.recordCount
    requires forall k :: i <= k < j ==> Usable(g, records, k)
    requires !Usable(g, records, j)
    ensures FillFrom(g, c, records, i).result
         == Err(if j < |records| && Hex.Decode(records[j]).None? then InvalidHex else OutOfRange)
    decreases j - i
  {
    if i < j {
      assert Usable(g, records, i);
      var bytes := Hex.Decode(records[i]).value;
      var written := WriteRecord(g, c.buffer, i, bytes);
      FillFromStopsAtFirstUnusable(g, Cache(written, c.cursor), records, i + 1, j);
    }
  }

  /** Go's `RefreshCache`: fetch one batch and decode record i into segment i */
  function Refill(g: Geometry, c: Cache, response: Response): (r: Step<()>)
    requires Valid(g, c)
    ensures Valid(g, r.cache)
    ensures response.Err? ==> r == Step(c, Err(response.error))
    ensures r.result.Ok? <==>
              && response.Ok?
              && forall k :: 0 <= k < g.recordCount ==> Usable(g, response.value, k)
    ensures r.result.Ok? ==> r.cache.cursor == 0
    ensures r.result.Ok? ==> forall k :: 0 <= k < g.recordCount ==>
              Segment(g, r.cache.buffer, k) == RecordBytes(g, response.value, k)
    ensures r.result.Err? ==> r.cache.cursor == c.cursor
  {
    match response
    case Err(e) => Step(c, Err(e))
    case Ok(records) => FillFrom(g, c, records, 0)
  }

  /** Byte j of record i lands at offset i * recordSize + j */
  lemma RefillPlacesRecordBytes(g: Geometry, c: Cache, response: Response, i: nat, j: nat)
    requires Valid(g, c)
    requires i < g.recordCount && j < g.recordSize
    requires Refill(g, c, response).result.Ok?
    ensures i < |response.value|
    ensures Hex.Decode(response.value[i]).Some?
    ensures j < |Hex.Decode(response.value[i]).value|
    ensures i * g.recordSize + j < g.Limit()
    ensures Refill(g, c, response).cache.buffer[i * g.recordSize + j]
         == Hex.Decode(response.value[i]).value[j]
  {
    var records := response.value;
    assert Usable(g, records, i);
    var buffer := Refill(g, c, response).cache.buffer;
    assert Segment(g, buffer, i) == RecordBytes(g, records, i);
    SegmentAt(g, buffer, i, j);
  }

  /** A successful refill replaces the buffer wholesale: what was in it before
      makes no difference to the result */
  lemma RefillIgnoresOldBuffer(g: Geometry, c1: Cache, c2: Cache, response: Response)
    requires Valid(g, c1) && Valid(g, c2)
    requires Refill(g, c1, response).result.Ok?
    ensures Refill(g, c2, response) == Refill(g, c1, response)
  {
    FillFromIgnoresUnwritten(g, c1, c2, response.value, 0);
  }

  /** Loop form of the above: caches that agree on the segments already
      written end up equal */
  lemma {:induction false} FillFromIgnoresUnwritten(g: Geometry, c1: Cache, c2: Cache, records: seq<string>, i: nat)
    requires |c1.buffer| == g.Limit() && |c2.buffer| == g.Limit() && i <= g.recordCount
    requires forall m :: 0 <= m < g.Start(i) ==> c1.buffer[m] == c2.buffer[m]
    requires FillFrom(g, c1, records, i).result.Ok?
    ensures FillFrom(g, c2, records, i) == FillFrom(g, c1, records, i)
    decreases g.recordCount - i
  {
    if i == g.recordCount {
      assert c1.buffer == c2.buffer;
    } else {
      assert Usable(g, records, i);
      var bytes := Hex.Decode(records[i]).value;
      var w1 := WriteRecord(g, c1.buffer, i, bytes);
      var w2 := WriteRecord(g, c2.buffer, i, bytes);
      SegmentFits(g, i);
      forall m | 0 <= m < g.Start(i + 1)
        ensures w1[m] == w2[m]
      {
        if m >= i * g.recordSize {
          assert w1[m] == Segment(g, w1, i)[m - i * g.recordSize];
          assert w2[m] == Segment(g, w2, i)[m - i * g.recordSize];
        }
      }
      FillFromIgnoresUnwritten(g, Cache(w1, c1.cursor), Cache(w2, c2.cursor), records, i + 1);
    }
  }

  /** The condition under which `GetBytesFromCache` refills first. It asks
      for one byte more than it needs: without a refill the request must end
      before the buffer's last byte. The end is computed in 64-bit
      arithmetic, so a quantity that carries it past the largest `int`
      wraps to a negative end and asks for no refill. */
  predicate NeedsRefill(g: Geometry, c: Cache, n: nat) {
    c.cursor >= g.Limit() || c.cursor == UNFILLED || WrapInt64(c.cursor + n) > g.Limit() - 1
  }

  /** Go's `GetBytesFromCache`: serve the n bytes at the cursor and advance it,
      refilling the whole buffer first when `NeedsRefill` holds. A request
      longer than the buffer panics on the slice after the refill; one whose
      end wrapped panics on the slice without a refill. */
  function Take(g: Geometry, c: Cache, n: nat, response: Response): (r: Step<seq<Byte>>)
    requires Valid(g, c)
    ensures Valid(g, r.cache)
    ensures r.result.Ok? ==> |r.result.value| == n
    ensures !NeedsRefill(g, c, n) && c.cursor + n > INT64_MAX ==> r == Step(c, Err(OutOfRange))
    ensures !NeedsRefill(g, c, n) && c.cursor + n <= INT64_MAX ==>
              && c.cursor + n < g.Limit()
              && r == Step(Cache(c.buffer, c.cursor + n), Ok(c.buffer[c.cursor .. c.cursor + n]))
    ensures NeedsRefill(g, c, n) && Refill(g, c, response).result.Ok? ==>
              var filled := Refill(g, c, response).cache;
              && filled.cursor == 0
              && (n <= g.Limit() ==> r == Step(Cache(filled.buffer, n), Ok(filled.buffer[..n])))
              && (n > g.Limit() ==> r == Step(filled, Err(OutOfRange)))
    ensures NeedsRefill(g, c, n) && Refill(g, c, response).result.Err? ==>
              r == Step(Refill(g, c, response).cache, Err(Refill(g, c, response).result.error))
  {
    var c' :=
      if NeedsRefill(g, c, n) then Refill(g, c, response) else Step(c, Ok(()));
    match c'.result
    case Err(e) => Step(c'.cache, Err(e))
    case Ok(_) =>
      var start := c'.cache.cursor;
      if start + n > g.Limit() then Step(c'.cache, Err(OutOfRange))
      else Step(Cache(c'.cache.buffer, start + n), Ok(c'.cache.buffer[start .. start + n]))
  }

  /** A successful take moves the cursor on by exactly n bytes, from where it
      was or from 0 after a refill; a failed one leaves it in place unless n
      exceeds the whole buffer */
  lemma TakeAdvancesCursor(g: Geometry, c: Cache, n: nat, response: Response)
    requires Valid(g, c)
    ensures Take(g, c, n, response).result.Ok? ==>
              Take(g, c, n, response).cache.cursor == (if NeedsRefill(g, c, n) then 0 else c.cursor) + n
    ensures Take(g, c, n, response).result.Err? && n <= g.Limit() ==>
              Take(g, c, n, response).cache.cursor == c.cursor
  {
  }

  /** A quantity whose end passes the largest `int` wraps in the refill
      test: with the cursor below the buffer's length there is no refill,
      the provider is not asked, and the slice panics with the cache as it
      was. With the cursor at 5, a request for `math.MaxInt` bytes is such
      a quantity. (A cursor equal to the length still refills first.) */
  lemma TakeWrapsOnHugeQuantity(g: Geometry, c: Cache, n: nat, response: Response)
    requires Valid(g, c) && 0 <= c.cursor < g.Limit()
    requires n <= INT64_MAX < c.cursor + n
    ensures !NeedsRefill(g, c, n)
    ensures Take(g, c, n, response) == Step(c, Err(OutOfRange))
  {
    assert WrapInt64(c.cursor + n) == c.cursor + n - TWO_64 by {
      assert (c.cursor + n) % TWO_64 == c.cursor + n;
    }
  }

  /** The provider is consulted only when `NeedsRefill` holds: otherwise its
      answer makes no difference to the take */
  lemma TakeIgnoresProviderUnlessNeeded(g: Geometry, c: Cache, n: nat, r1: Response, r2: Response)
    requires Valid(g, c) && !NeedsRefill(g, c, n)
    ensures Take(g, c, n, r1) == Take(g, c, n, r2)
  {
  }

  /** A take that has to refill and whose request fails returns the
      provider's error and leaves the cache as it was */
  lemma TakeReportsFetchFailure(g: Geometry, c: Cache, n: nat, response: Response)
    requires Valid(g, c) && NeedsRefill(g, c, n) && response.Err?
    ensures Take(g, c, n, response) == Step(c, Err(response.error))
  {
  }

  function Sum(ns: seq<nat>): nat {
    if |ns| == 0 then 0 else ns[0] + Sum(ns[1..])
  }

  function Flatten(slices: seq<seq<Byte>>): seq<Byte> {
    if |slices| == 0 then [] else slices[0] + Flatten(slices[1..])
  }

  /** A sequence of takes: the cache it ends in, the slices it served, how
      many requests the provider has answered, and the error that stopped it */
  datatype Run = Run(cache: Cache, served: seq<seq<Byte>>, fetches: nat, failure: Option<Error>)

  /** Serves the requests ns in order until one fails. The provider answers
      its k-th request with provider(k); `fetches` requests came before. */
  function Serve(g: Geometry, c: Cache, ns: seq<nat>, provider: nat -> Response, fetches: nat): (r: Run)
    requires Valid(g, c)
    ensures Valid(g, r.cache)
    ensures r.failure.None? ==> |r.served| == |ns|
    ensures r.failure.Some? ==> |r.served| < |ns|
    ensures fetches <= r.fetches <= fetches + |ns|
    decreases |ns|
  {
    if |ns| == 0 then Run(c, [], fetches, None)
    else
      var asked := NeedsRefill(g, c, ns[0]);
      var step := Take(g, c, ns[0], provider(fetches));
      var fetches' := if asked then fetches + 1 else fetches;
      match step.result
      case Err(e) => Run(step.cache, [], fetches', Some(e))
      case Ok(bytes) =>
        var rest := Serve(g, step.cache, ns[1..], provider, fetches');
        Run(rest.cache, [bytes] + rest.served, rest.fetches, rest.failure)
  }

  /** One successful take, into cache `next` with `bytes`, followed by the
      rest of the run */
  lemma ServeStep(g: Geometry, c: Cache, ns: seq<nat>, provider: nat -> Response, fetches: nat,
                  next: Cache, bytes: seq<Byte>)
    requires Valid(g, c) && |ns| > 0
    requires Take(g, c, ns[0], provider(fetches)) == Step(next, Ok(bytes))
    ensures Valid(g, next)
    ensures var fetches' := if NeedsRefill(g, c, ns[0]) then fetches + 1 else fetches;
      var rest := Serve(g, next, ns[1..], provider, fetches');
      var r := Serve(g, c, ns, provider, fetches);
      && r.cache == rest.cache
      && r.fetches == rest.fetches
      && r.failure == rest.failure
      && Flatten(r.served) == bytes + Flatten(rest.served)
  {
    var fetches' := if NeedsRefill(g, c, ns[0]) then fetches + 1 else fetches;
    var rest := Serve(g, next, ns[1..], provider, fetches');
    assert ([bytes] + rest.served)[1..] == rest.served;
  }

  /** Adjacent slices of one buffer join into the slice spanning both */
  lemma JoinSlices(buffer: seq<Byte>, lo: nat, mid: nat, hi: nat, head: seq<Byte>, tail: seq<Byte>)
    requires lo <= mid <= hi <= |buffer|
    requires head == buffer[lo..mid] && tail == buffer[mid..hi]
    ensures head + tail == buffer[lo..hi]
  {
  }

  /** Takes that fit before the buffer's last byte are served back to back
      from the current buffer, without asking the provider */
  lemma {:induction false} ServeWithinBuffer(g: Geometry, c: Cache, ns: seq<nat>, provider: nat -> Response, fetches: nat)
    requires Valid(g, c) && c.cursor != UNFILLED
    requires c.cursor + Sum(ns) <= g.Limit() - 1
    ensures Serve(g, c, ns, provider, fetches).fetches == fetches
    ensures Serve(g, c, ns, provider, fetches).failure == None
    ensures Flatten(Serve(g, c, ns, provider, fetches).served) == c.buffer[c.cursor .. c.cursor + Sum(ns)]
    ensures Serve(g, c, ns, provider, fetches).cache == Cache(c.buffer, c.cursor + Sum(ns))
    decreases |ns|
  {
    if |ns| > 0 {
      var c' := Cache(c.buffer, c.cursor + ns[0]);
      var head := c.buffer[c.cursor .. c.cursor + ns[0]];
      assert Take(g, c, ns[0], provider(fetches)) == Step(c', Ok(head));
      ServeStep(g, c, ns, provider, fetches, c', head);
      ServeWithinBuffer(g, c', ns[1..], provider, fetches);
      var rest := Serve(g, c', ns[1..], provider, fetches);
      JoinSlices(c.buffer, c.cursor, c.cursor + ns[0], c.cursor + Sum(ns), head, Flatten(rest.served));
    }
  }

  /** A run whose first take refills into `buffer` and whose remaining takes
      fit before that buffer's last byte asks the provider exactly once */
  lemma ServeAfterRefillingTake(g: Geometry, c: Cache, ns: seq<nat>, provider: nat -> Response, fetches: nat, buffer: seq<Byte>)
    requires Valid(g, c) && |ns| > 0
    requires NeedsRefill(g, c, ns[0])
    requires |buffer| == g.Limit() && ns[0] + Sum(ns[1..]) <= g.Limit() - 1
    requires Take(g, c, ns[0], provider(fetches)) == Step(Cache(buffer, ns[0]), Ok(buffer[..ns[0]]))
    ensures Serve(g, c, ns, provider, fetches).fetches == fetches + 1
    ensures Serve(g, c, ns, provider, fetches).failure == None
    ensures Flatten(Serve(g, c, ns, provider, fetches).served) == buffer[..ns[0] + Sum(ns[1..])]
  {
    var c' := Cache(buffer, ns[0]);
    var total := ns[0] + Sum(ns[1..]);
    var rest := Serve(g, c', ns[1..], provider, fetches + 1);
    ServeWithinBuffer(g, c', ns[1..], provider, fetches + 1);
    assert Flatten(rest.served) == c'.buffer[c'.cursor .. c'.cursor + Sum(ns[1..])];
    ServeStep(g, c, ns, provider, fetches, c', buffer[..ns[0]]);
    JoinSlices(buffer, 0, ns[0], total, buffer[..ns[0]], Flatten(rest.served));
  }

  /** From a never-filled cache, a run of takes that fits before the buffer's
      last byte asks the provider exactly once and serves the fresh buffer
      from its start */
  lemma ColdStartFetchesOnce(g: Geometry, c: Cache, ns: seq<nat>, provider: nat -> Response, fetches: nat)
    requires Valid(g, c) && c.cursor == UNFILLED
    requires |ns| > 0 && Sum(ns) <= g.Limit() - 1
    requires Refill(g, c, provider(fetches)).result.Ok?
    ensures Serve(g, c, ns, provider, fetches).fetches == fetches + 1
    ensures Serve(g, c, ns, provider, fetches).failure == None
    ensures Flatten(Serve(g, c, ns, provider, fetches).served)
         == Refill(g, c, provider(fetches)).cache.buffer[..Sum(ns)]
  {
    var buffer := Refill(g, c, provider(fetches)).cache.buffer;
    assert Take(g, c, ns[0], provider(fetches)) == Step(Cache(buffer, ns[0]), Ok(buffer[..ns[0]]));
    ServeAfterRefillingTake(g, c, ns, provider, fetches, buffer);
  }

  /** From a never-filled cache whose first request fails, the run stops at
      once with the provider's error and serves nothing */
  lemma ColdStartFailure(g: Geometry, c: Cache, ns: seq<nat>, provider: nat -> Response, fetches: nat)
    requires Valid(g, c) && c.cursor == UNFILLED && |ns| > 0
    requires provider(fetches).Err?
    ensures Serve(g, c, ns, provider, fetches) == Run(c, [], fetches + 1, Some(provider(fetches).error))
  {
  }

  /** One record of four bytes, "00010203", as the provider's only answer */
  lemma SampleRecordDecodes()
    ensures Hex.Decode("00010203") == Some([0, 1, 2, 3])
  {
    var bs: seq<Byte> := [0, 1, 2, 3];
    assert bs[1..] == [1, 2, 3] && bs[1..][1..] == [2, 3];
    assert bs[1..][1..][1..] == [3] && bs[1..][1..][1..][1..] == [];
    assert Hex.Encode([3]) == "03";
    assert Hex.Encode([2, 3]) == "0203";
    assert Hex.Encode([1, 2, 3]) == "010203";
    assert Hex.Encode(bs) == "00010203";
    Hex.DecodeEncode(bs);
  }

  /** A four-byte cache: from cold, a take of two serves bytes 0 and 1 and
      leaves the cursor at 2; a take of three then refills, because 2 + 3
      reaches past the buffer's last byte, and serves the fresh buffer's
      first three bytes */
  lemma BoundaryScenario()
    ensures Take(Geometry(1, 4), Initial(Geometry(1, 4)), 2, Ok(["00010203"]))
         == Step(Cache([0, 1, 2, 3], 2), Ok([0, 1]))
    ensures Take(Geometry(1, 4), Cache([0, 1, 2, 3], 2), 3, Ok(["00010203"]))
         == Step(Cache([0, 1, 2, 3], 3), Ok([0, 1, 2]))
  {
    var g := Geometry(1, 4);
    var response: Response := Ok(["00010203"]);
    var bytes: seq<Byte> := [0, 1, 2, 3];
    SampleRecordDecodes();
    assert Usable(g, response.value, 0);
    assert RecordBytes(g, response.value, 0) == bytes;
    RefilledWith(g, Initial(g), response, bytes);
    RefilledWith(g, Cache(bytes, 2), response, bytes);
    assert bytes[..2] == [0, 1] && bytes[..3] == [0, 1, 2];
  }

  /** In a one-record cache a successful refill holds exactly that record's
      bytes */
  lemma RefilledWith(g: Geometry, c: Cache, response: Response, bytes: seq<Byte>)
    requires Valid(g, c) && g.recordCount == 1
    requires Refill(g, c, response).result.Ok? && RecordBytes(g, response.value, 0) == bytes
    ensures Refill(g, c, response).cache == Cache(bytes, 0)
  {
    var filled := Refill(g, c, response).cache;
    assert Segment(g, filled.buffer, 0) == bytes;
    assert filled.buffer == filled.buffer[0 .. g.recordSize];
  }
}

=== FILE: hex.dfy ===
/** Base16 text as Go's `hex.DecodeString` accepts it (RFC 4648, section 8):
    pairs of digits, upper or lower case, most significant nibble first. Any
    other character or an odd length is an error. */
module Hex {
  import opened Bytes
  import opened Outcomes

  predicate IsHexDigit(c: char) {
    ('0' <= c <= '9') || ('a' <= c <= 'f') || ('A' <= c <= 'F')
  }

  function DigitValue(c: char): (v: nat)
    requires IsHexDigit(c)
    ensures v < 16
  {
    if '0' <= c <= '9' then c as int - '0' as int
    else if 'a' <= c <= 'f' then c as int - 'a' as int + 10
    else c as int - 'A' as int + 10
  }

  /** The lower-case digit of a nibble, as Go's encoder writes it */
  function DigitChar(v: nat): (c: char)
    requires v < 16
    ensures IsHexDigit(c) && DigitValue(c) == v
  {
    if v < 10 then ('0' as int + v) as char else ('a' as int + v - 10) as char
  }

  predicate AllHexDigits(s: string) {
    forall i :: 0 <= i < |s| ==> IsHexDigit(s[i])
  }

  /** The bytes spelled by s, or None if s has odd length or a character
      that is not a hexadecimal digit */
  function Decode(s: string): (r: Option<seq<Byte>>)
    ensures r.Some? <==> |s| % 2 == 0 && AllHexDigits(s)
    ensures r.Some? ==> |r.value| == |s| / 2
  {
    if |s| % 2 == 1 || !AllHexDigits(s) then None
    else Some(seq(|s| / 2, k requires 0 <= k < |s| / 2 =>
                16 * DigitValue(s[2 * k]) + DigitValue(s[2 * k + 1])))
  }

  function Encode(bs: seq<Byte>): (s: string)
    ensures |s| == 2 * |bs|
    ensures AllHexDigits(s)
  {
    if |bs| == 0 then ""
    else [DigitChar(bs[0] / 16), DigitChar(bs[0] % 16)] + Encode(bs[1..])
  }

  lemma {:induction false} EncodeDigits(bs: seq<Byte>, k: nat)
    requires k < |bs|
    ensures Encode(bs)[2 * k] == DigitChar(bs[k] / 16)
    ensures Encode(bs)[2 * k + 1] == DigitChar(bs[k] % 16)
  {
    if k > 0 {
      EncodeDigits(bs[1..], k - 1);
    }
  }

  /** Decoding undoes encoding */
  lemma DecodeEncode(bs: seq<Byte>)
    ensures Decode(Encode(bs)) == Some(bs)
  {
    var s := Encode(bs);
    var r := Decode(s).value;
    forall k | 0 <= k < |bs|
      ensures r[k] == bs[k]
    {
      EncodeDigits(bs, k);
      assert r[k] == 16 * DigitValue(s[2 * k]) + DigitValue(s[2 * k + 1]);
      assert r[k] == 16 * (bs[k] / 16) + bs[k] % 16;
    }
    assert |r| == |bs|;
    assert r == bs;
  }
}

=== FILE: outcomes.dfy ===
/** Results of the entropy pipeline's fallible operations. Go reports failure
    as a second `error` return value; here it is the `Err` alternative. */
module Outcomes {

  /** Why an operation gave up: a refill's failure, or a runtime panic */
  datatype Error =
    | FetchFailed   // the provider's HTTP request or its JSON body failed
    | InvalidHex    // a record was not well-formed base-16 text
    | OutOfRange    // a Go runtime panic: an index or slice bound out of range
    | DivideByZero  // a Go runtime panic: integer division by zero

  datatype Result<T> = Ok(value: T) | Err(error: Error)

  datatype Option<T> = None | Some(value: T)
}

=== FILE: power_of_two.dfy ===
/** `ApproximatePowerOf2`: the bit-smearing round-up to a power of two. The
    five or-with-shift steps copy the highest set bit of `input - 1` into the
    31 positions below it, which reaches every lower bit only while the input
    has at most 32 significant bits; that is the range on which the result is
    the least power of two at or above the input. */
module PowerOfTwo {
  import opened Bits

  const MAX_ROUNDED: int := 0x1_0000_0000

  /** The five `v |= v >> s` steps, s = 1, 2, 4, 8, 16 */
  function Smear(v: nat): nat {
    var a := Or(v, Shr(v, 1));
    var b := Or(a, Shr(a, 2));
    var c := Or(b, Shr(b, 4));
    var d := Or(c, Shr(c, 8));
    Or(d, Shr(d, 16))
  }

  /** Go's `ApproximatePowerOf2` on a non-negative `int`, including the
      wrap-around of the final `+ 1` when the smeared value is 2^63 - 1. For
      input 0 the decrement gives -1, whose bits are all ones and stay so
      under the arithmetic shifts, so the result is -1 + 1 = 0. */
  function ApproximatePowerOf2(input: int): (r: int)
    requires 0 <= input <= INT64_MAX
    ensures IsInt64(r)
    ensures input == 0 ==> r == 0
    ensures 1 <= input <= MAX_ROUNDED ==> IsPowerOfTwo(r) && input <= r < 2 * input
  {
    if input == 0 then 0
    else
      RoundUpFacts(input - 1);
      WrapInt64(Smear(input - 1) + 1)
  }

  /** One or-with-shift step keeps bit p set when bit p or bit p + s was set */
  lemma StageBit(a: nat, s: nat, p: nat, t: nat)
    requires t <= 1
    requires BitOf(a, p + t * s) == 1
    ensures BitOf(Or(a, Shr(a, s)), p) == 1
  {
    OrBit(a, Shr(a, s), p);
    ShrBit(a, s, p);
  }

  /** A set bit of v reaches position i when its distance above i is written
      with the binary digits t0 .. t4, one per step */
  lemma SmearReachesDigits(v: nat, i: nat, t0: nat, t1: nat, t2: nat, t3: nat, t4: nat)
    requires t0 <= 1 && t1 <= 1 && t2 <= 1 && t3 <= 1 && t4 <= 1
    requires BitOf(v, i + 16 * t4 + 8 * t3 + 4 * t2 + 2 * t1 + t0) == 1
    ensures BitOf(Smear(v), i) == 1
  {
    var a := Or(v, Shr(v, 1));
    var b := Or(a, Shr(a, 2));
    var c := Or(b, Shr(b, 4));
    var e := Or(c, Shr(c, 8));
    var p4 := i + 16 * t4;
    var p3 := p4 + 8 * t3;
    var p2 := p3 + 4 * t2;
    var p1 := p2 + 2 * t1;
    StageBit(v, 1, p1, t0);
    StageBit(a, 2, p2, t1);
    StageBit(b, 4, p3, t2);
    StageBit(c, 8, p4, t3);
    StageBit(e, 16, i, t4);
  }

  /** A set bit of v reaches every position up to 31 places below it */
  lemma SmearReaches(v: nat, i: nat, d: nat)
    requires d < 32
    requires BitOf(v, i + d) == 1
    ensures BitOf(Smear(v), i) == 1
  {
    var t0, t1, t2, t3, t4 := d % 2, (d / 2) % 2, (d / 4) % 2, (d / 8) % 2, d / 16;
    BinaryDigits(d);
    SmearReachesDigits(v, i, t0, t1, t2, t3, t4);
  }

  /** The five binary digits of a number below 32 */
  lemma BinaryDigits(d: nat)
    requires d < 32
    ensures d / 16 <= 1
    ensures d == 16 * (d / 16) + 8 * ((d / 8) % 2) + 4 * ((d / 4) % 2) + 2 * ((d / 2) % 2) + d % 2
  {
  }

  /** Smearing never sets a bit above the highest bit of its input */
  lemma SmearBelow(v: nat, n: nat)
    requires v < Pow2(n)
    ensures Smear(v) < Pow2(n)
  {
    var a := Or(v, Shr(v, 1));
    OrBound(v, Shr(v, 1), n);
    var b := Or(a, Shr(a, 2));
    OrBound(a, Shr(a, 2), n);
    var c := Or(b, Shr(b, 4));
    OrBound(b, Shr(b, 4), n);
    var d := Or(c, Shr(c, 8));
    OrBound(c, Shr(c, 8), n);
    OrBound(d, Shr(d, 16), n);
  }

  lemma SmearValue(v: nat)
    requires v < MAX_ROUNDED
    ensures Smear(v) == Pow2(BitLength(v)) - 1
  {
    Pow2Literals();
    var n := BitLength(v);
    BitLengthBounds(v);
    BitLengthAtMost(v, 32);
    SmearBelow(v, n);
    SmearSetsLowBits(v, n);
    AllOnes(Smear(v), n);
  }

  /** Below a set bit n - 1, with n at most 32, smearing sets every bit */
  lemma SmearSetsLowBits(v: nat, n: nat)
    requires n <= 32 && (n > 0 ==> BitOf(v, n - 1) == 1)
    ensures forall i :: 0 <= i < n ==> BitOf(Smear(v), i) == 1
  {
    forall i | 0 <= i < n
      ensures BitOf(Smear(v), i) == 1
    {
      SmearReaches(v, i, n - 1 - i);
    }
  }

  /** The smeared value plus one is at most 2^63, so only 2^63 itself wraps */
  lemma RoundUpBelowWrap(v: nat)
    requires v < INT64_MAX
    ensures IsInt64(Smear(v) + 1) || Smear(v) + 1 == INT64_MAX + 1
  {
    Pow2Literals();
    SmearBelow(v, 63);
  }

  /** 2^BitLength(v) is a power of two above v and at most twice v + 1 */
  lemma NextPowerOfTwo(v: nat, p: nat)
    requires v < MAX_ROUNDED && p == Pow2(BitLength(v))
    ensures p <= MAX_ROUNDED
    ensures IsPowerOfTwo(p)
    ensures v < p < 2 * (v + 1)
  {
    var n := BitLength(v);
    Pow2Literals();
    BitLengthBounds(v);
    BitLengthAtMost(v, 32);
    Pow2Monotone(n, 32);
    Pow2IsPowerOfTwo(n);
    if v > 0 {
      assert Pow2(n) == 2 * Pow2(n - 1);
    }
  }

  /** What the body of `ApproximatePowerOf2` computes from v = input - 1:
      no overflow except at 2^63, and below 2^32 the power of two just above v */
  lemma RoundUpFacts(v: nat)
    requires v < INT64_MAX
    ensures IsInt64(Smear(v) + 1) || Smear(v) + 1 == INT64_MAX + 1
    ensures v < MAX_ROUNDED ==>
              && Smear(v) + 1 == Pow2(BitLength(v))
              && Smear(v) + 1 <= MAX_ROUNDED
              && IsPowerOfTwo(Smear(v) + 1)
              && v < Smear(v) + 1 < 2 * (v + 1)
  {
    RoundUpBelowWrap(v);
    if v < MAX_ROUNDED {
      SmearValue(v);
      NextPowerOfTwo(v, Smear(v) + 1);
    }
  }

  lemma MaxRoundedIsPow2()
    ensures Pow2(32) == MAX_ROUNDED
  {
    Pow2Literals();
  }

  /** On its exact range the function is the textbook "next power of two" */
  lemma RoundsUpToNextPowerOfTwo(x: int)
    requires 1 <= x <= MAX_ROUNDED
    ensures ApproximatePowerOf2(x) == Pow2(BitLength(x - 1))
    ensures ApproximatePowerOf2(x) <= MAX_ROUNDED
  {
    var v: nat := x - 1;
    RoundUpFacts(v);
  }

  /** No power of two at or above x is smaller than the result */
  lemma IsLeastPowerOfTwoAtOrAbove(x: int, k: nat)
    requires 1 <= x <= MAX_ROUNDED
    requires x <= Pow2(k)
    ensures ApproximatePowerOf2(x) <= Pow2(k)
  {
    var v: nat := x - 1;
    var n := BitLength(v);
    RoundsUpToNextPowerOfTwo(x);
    BitLengthBounds(v);
    if k < n {
      Pow2Monotone(k, n - 1);
    } else {
      Pow2Monotone(n, k);
    }
  }

  /** Powers of two up to 2^32 are fixed points */
  lemma PowersOfTwoAreFixed(k: nat)
    requires k <= 32
    ensures Pow2(k) <= MAX_ROUNDED
    ensures ApproximatePowerOf2(Pow2(k)) == Pow2(k)
  {
    MaxRoundedIsPow2();
    Pow2Monotone(k, 32);
    var r := ApproximatePowerOf2(Pow2(k));
    IsLeastPowerOfTwoAtOrAbove(Pow2(k), k);
    assert Pow2(k) <= r <= Pow2(k);
  }

  /** Rounding twice is rounding once */
  lemma Idempotent(x: int)
    requires 0 <= x <= MAX_ROUNDED
    ensures ApproximatePowerOf2(ApproximatePowerOf2(x)) == ApproximatePowerOf2(x)
  {
    if x > 0 {
      var v: nat := x - 1;
      MaxRoundedIsPow2();
      BitLengthAtMost(v, 32);
      RoundsUpToNextPowerOfTwo(x);
      PowersOfTwoAreFixed(BitLength(v));
    }
  }
}

=== FILE: random_int.dfy ===
/** `GetRandomInt`: draw a byte width's worth of entropy from the cache, read
    it as a big-endian unsigned number and fold it into [min, max] with Go's
    `%`. The width comes from `ApproximatePowerOf2(max)`; Go computes its
    base-2 logarithm in floating point, which is exact here because the
    argument is a power of two, so the model uses the integer `Log2`. */
module RandomInt {
  import opened Bits
  import opened Bytes
  import opened Outcomes
  import opened PowerOfTwo
  import opened EntropyCache

  /** Go's word size: `binary.BigEndian.Uint64` reads eight bytes */
  const WORD: nat := 8

  function Abs(x: int): nat {
    if x < 0 then -x else x
  }

  /** Go's `/` on `int`: the quotient truncated toward zero */
  function GoQuot(a: int, b: int): int
    requires b != 0
  {
    var q := Abs(a) / Abs(b);
    if (a < 0) == (b < 0) then q else -q
  }

  /** Go's `%` on `int`: the remainder that goes with the truncated quotient,
      so it is smaller than the divisor in magnitude and takes the sign of
      the dividend; the divisor's sign makes no difference */
  function GoRem(a: int, b: int): (r: int)
    requires b != 0
    ensures a == GoQuot(a, b) * b + r
    ensures Abs(r) < Abs(b)
    ensures a >= 0 ==> r >= 0
    ensures a <= 0 ==> r <= 0
  {
    GoDivision(a, b);
    var m := Abs(a) % Abs(b);
    if a < 0 then -m else m
  }

  /** Truncated division splits a into quotient times divisor plus a
      remainder carrying a's sign */
  lemma GoDivision(a: int, b: int)
    requires b != 0
    ensures a == GoQuot(a, b) * b + (if a < 0 then -(Abs(a) % Abs(b)) else Abs(a) % Abs(b))
  {
    var q := Abs(a) / Abs(b);
    var m := Abs(a) % Abs(b);
    assert Abs(a) == q * Abs(b) + m;
    if b < 0 {
      assert q * Abs(b) == -(q * b);
    } else {
      assert q * Abs(b) == q * b;
    }
  }

  /** On a non-negative dividend and a positive divisor Go's `%` agrees
      with the Euclidean one */
  lemma GoRemNonNegative(a: int, b: int)
    requires a >= 0 && b > 0
    ensures GoRem(a, b) == a % b
  {
  }

  /** The remainder is the same for a divisor of either sign */
  lemma GoRemIgnoresDivisorSign(a: int, b: int)
    requires b != 0
    ensures GoRem(a, -b) == GoRem(a, b)
  {
  }

  /** The exponent of `ApproximatePowerOf2(max)`: the bit length of max - 1 */
  lemma RoundedExponent(max: int)
    requires 1 <= max <= MAX_ROUNDED
    ensures IsPowerOfTwo(ApproximatePowerOf2(max))
    ensures Log2(ApproximatePowerOf2(max)) == BitLength(max - 1) <= 32
  {
    var v: nat := max - 1;
    RoundsUpToNextPowerOfTwo(max);
    Pow2IsPowerOfTwo(BitLength(v));
    MaxRoundedIsPow2();
    BitLengthAtMost(v, 32);
  }

  /** Go's byte width, `int(math.Max(math.Log2(p) / 8, 1))` for
      p = ApproximatePowerOf2(max): the truncated eighth of the exponent,
      but at least one byte. For max = 0, p is 0 and its logarithm is minus
      infinity, so the maximum picks 1. */
  function ByteWidth(max: int): (w: nat)
    requires 0 <= max <= MAX_ROUNDED
    ensures 1 <= w <= 4
  {
    if max == 0 then 1
    else
      RoundedExponent(max);
      var k := Log2(ApproximatePowerOf2(max));
      if k / 8 < 1 then 1 else k / 8
  }

  /** BitLength(a) <= n exactly when a < 2^n */
  lemma BitLengthAtMostIff(a: nat, n: nat)
    ensures BitLength(a) <= n <==> a < Pow2(n)
  {
    BitLengthBounds(a);
    if BitLength(a) <= n {
      Pow2Monotone(BitLength(a), n);
    } else {
      Pow2Monotone(n, BitLength(a) - 1);
    }
  }

  lemma Pow2Widths()
    ensures Pow2(15) == 0x8000 && Pow2(23) == 0x80_0000 && Pow2(31) == 0x8000_0000
  {
    Pow2Literals();
    Pow2Add(8, 7);
    Pow2Add(16, 7);
    Pow2Add(16, 15);
  }

  /** For positive max the width is the truncated eighth of BitLength(max - 1),
      at least one */
  lemma ByteWidthByExponent(max: int)
    requires 1 <= max <= MAX_ROUNDED
    ensures BitLength(max - 1) <= 32
    ensures ByteWidth(max) == if BitLength(max - 1) < 8 then 1 else BitLength(max - 1) / 8
  {
    RoundedExponent(max);
  }

  /** max fits under the power of two p = 2^n exactly when the bit length of
      max - 1 is at most n */
  lemma ExponentBoundary(max: int, n: nat, p: nat)
    requires 1 <= max && p == Pow2(n)
    ensures BitLength(max - 1) <= n <==> max <= p
  {
    BitLengthAtMostIff(max - 1, n);
  }

  /** The byte width by ranges of max: one byte up to 2^15, two up to 2^23,
      three up to 2^31 and four above */
  lemma ByteWidthTable(max: int)
    requires 0 <= max <= MAX_ROUNDED
    ensures ByteWidth(max) == (if max <= 0x8000 then 1
                               else if max <= 0x80_0000 then 2
                               else if max <= 0x8000_0000 then 3
                               else 4)
  {
    if max > 0 {
      ByteWidthByExponent(max);
      Pow2Widths();
      ExponentBoundary(max, 15, 0x8000);
      ExponentBoundary(max, 23, 0x80_0000);
      ExponentBoundary(max, 31, 0x8000_0000);
    }
  }

  /** The padded word's unsigned value is the value of the bytes themselves */
  lemma PaddedValue(bytes: seq<Byte>)
    requires |bytes| <= WORD
    ensures BigEndian(Zeros(WORD - |bytes|) + bytes) == BigEndian(bytes) < Pow256(|bytes|)
  {
    LeadingZeros(WORD - |bytes|, bytes);
    BigEndianBound(bytes);
  }

  lemma Pow256Literals()
    ensures Pow256(7) == 0x100_0000_0000_0000
    ensures Pow256(8) == TWO_64
  {
  }

  /** Go's `max - min + 1` in 64-bit arithmetic: the divisor of the reduction */
  function RangeSize(min: int, max: int): (s: int)
    ensures IsInt64(s)
    ensures IsInt64(max - min + 1) ==> s == max - min + 1
  {
    WrapInt64(max - min + 1)
  }

  /** With max in the supported range the divisor is zero, and Go's `%`
      panics, exactly when min is max + 1 */
  lemma RangeSizeZero(min: int, max: int)
    requires IsInt64(min) && 0 <= max <= MAX_ROUNDED
    ensures RangeSize(min, max) == 0 <==> min == max + 1
  {
    var x := max - min + 1;
    if x > 0 {
      assert x % TWO_64 == x;
    } else if x < 0 {
      assert x % TWO_64 == x + TWO_64;
    }
  }

  /** Go's `(n % size) + min` in 64-bit arithmetic */
  function Reduce(n: int, size: int, min: int): (v: int)
    requires size != 0
    ensures IsInt64(v)
    ensures 0 <= n && 0 < size && IsInt64(min) && IsInt64(min + size - 1) ==> min <= v < min + size
  {
    WrapInt64(GoRem(n, size) + min)
  }

  /** Go's remainder of a non-negative dividend is non-negative and never
      larger than the dividend, whatever the divisor's sign */
  lemma GoRemAtMost(a: nat, b: int)
    requires b != 0
    ensures 0 <= GoRem(a, b) <= a
  {
    if a < Abs(b) {
      SmallRemainder(a, Abs(b));
    }
  }

  /** For min <= max the divisor is zero only for the full 64-bit range,
      where `max - min + 1` wraps to exactly 0; otherwise a non-negative
      64-bit n is reduced into [min, max] without wrapping, even when
      `max - min + 1` overflows: the divisor is then negative with a
      magnitude above n, so the remainder is at most n <= max - min */
  lemma ReduceInRange(n: int, min: int, max: int)
    requires IsInt64(min) && IsInt64(max)
    ensures min <= max ==> (RangeSize(min, max) == 0 <==> min == INT64_MIN && max == INT64_MAX)
    ensures 0 <= n <= INT64_MAX && min <= max && RangeSize(min, max) != 0 ==>
              && Reduce(n, RangeSize(min, max), min) == GoRem(n, RangeSize(min, max)) + min
              && min <= Reduce(n, RangeSize(min, max), min) <= max
  {
    if min <= max {
      var x := max - min + 1;
      var size := RangeSize(min, max);
      if x < TWO_64 {
        assert x % TWO_64 == x;
      } else {
        assert x % TWO_64 == 0;
      }
      if 0 <= n <= INT64_MAX && size != 0 {
        GoRemAtMost(n, size);
        if IsInt64(x) {
          assert GoRem(n, size) < x;
        }
      }
    }
  }

  /** Go's reduction of the drawn bytes into [min, max]: pad to a word with
      leading zeros, read it as `uint64`, convert to `int`, take `%` by the
      range size and add min, every step in 64-bit arithmetic */
  function Derive(bytes: seq<Byte>, min: int, max: int): (v: int)
    requires |bytes| <= WORD
    requires IsInt64(min) && IsInt64(max) && RangeSize(min, max) != 0
    ensures IsInt64(v)
    ensures |bytes| < WORD && min <= max ==> min <= v <= max
  {
    var complete := Zeros(WORD - |bytes|) + bytes;
    DeriveFacts(bytes);
    ReduceInRange(WrapInt64(BigEndian(complete)), min, max);
    Reduce(WrapInt64(BigEndian(complete)), RangeSize(min, max), min)
  }

  lemma DeriveFacts(bytes: seq<Byte>)
    requires |bytes| <= WORD
    ensures |bytes| < WORD ==>
              && BigEndian(Zeros(WORD - |bytes|) + bytes) == BigEndian(bytes)
              && 0 <= BigEndian(bytes) <= INT64_MAX
  {
    if |bytes| < WORD {
      PaddedValue(bytes);
      Pow256Monotone(|bytes|, 7);
      Pow256Literals();
    }
  }

  /** Without overflow the derived value is the bytes' big-endian value
      reduced modulo the range size, shifted to min */
  lemma DeriveValue(bytes: seq<Byte>, min: int, max: int)
    requires |bytes| < WORD
    requires IsInt64(min) && IsInt64(max) && min <= max && IsInt64(max - min + 1)
    ensures Derive(bytes, min, max) == BigEndian(bytes) % (max - min + 1) + min
  {
    DeriveFacts(bytes);
    GoRemNonNegative(BigEndian(bytes), max - min + 1);
  }

  /** Go's `GetRandomInt(min, max)` against the cache: one take of the byte
      width, then the reduction. A failed take fails the call; a zero range
      size panics in the `%`, after the take has already moved the cursor. */
  function GetRandomInt(g: Geometry, c: Cache, min: int, max: int, response: Response): (r: Step<int>)
    requires Valid(g, c)
    requires IsInt64(min) && 0 <= max <= MAX_ROUNDED
    ensures Valid(g, r.cache)
    ensures r.result.Ok? && min <= max ==> min <= r.result.value <= max
    ensures r.result.Err? <==> Take(g, c, ByteWidth(max), response).result.Err? || min == max + 1
  {
    RangeSizeZero(min, max);
    var step := Take(g, c, ByteWidth(max), response);
    match step.result
    case Err(e) => Step(step.cache, Err(e))
    case Ok(bytes) =>
      if RangeSize(min, max) == 0 then Step(step.cache, Err(DivideByZero))
      else Step(step.cache, Ok(Derive(bytes, min, max)))
  }

  /** A call consumes exactly the byte width: whenever the take succeeds the
      cursor moves on by that many bytes from where it was, or from 0 after
      a refill. A failed call reports the take's error, or the division by
      zero when the take succeeded; a failed take whose width fits the
      buffer leaves the cursor where it was. */
  lemma ConsumesByteWidth(g: Geometry, c: Cache, min: int, max: int, response: Response)
    requires Valid(g, c)
    requires IsInt64(min) && 0 <= max <= MAX_ROUNDED
    ensures Take(g, c, ByteWidth(max), response).result.Ok? ==>
              GetRandomInt(g, c, min, max, response).cache.cursor
                == (if NeedsRefill(g, c, ByteWidth(max)) then 0 else c.cursor) + ByteWidth(max)
    ensures GetRandomInt(g, c, min, max, response).result.Err? ==>
              GetRandomInt(g, c, min, max, response).result.error
                == (if Take(g, c, ByteWidth(max), response).result.Err?
                    then Take(g, c, ByteWidth(max), response).result.error
                    else DivideByZero)
    ensures Take(g, c, ByteWidth(max), response).result.Err? && ByteWidth(max) <= g.Limit() ==>
              GetRandomInt(g, c, min, max, response).cache.cursor == c.cursor
  {
    var w := ByteWidth(max);
    var step := Take(g, c, w, response);
    TakeAdvancesCursor(g, c, w, response);
    assert GetRandomInt(g, c, min, max, response).cache == step.cache;
  }

  /** The value returned is the served bytes reduced into the range */
  lemma GetRandomIntValue(g: Geometry, c: Cache, min: int, max: int, response: Response)
    requires Valid(g, c)
    requires IsInt64(min) && 0 <= max <= MAX_ROUNDED && min <= max && IsInt64(max - min + 1)
    ensures Take(g, c, ByteWidth(max), response).result.Ok? ==>
              GetRandomInt(g, c, min, max, response).result
                == Ok(BigEndian(Take(g, c, ByteWidth(max), response).result.value) % (max - min + 1) + min)
  {
    var step := Take(g, c, ByteWidth(max), response);
    if step.result.Ok? {
      var bytes := step.result.value;
      assert GetRandomInt(g, c, min, max, response).result == Ok(Derive(bytes, min, max));
      DeriveValue(bytes, min, max);
    }
  }

  /** As written, a call never returns more than min + 256^width - 1: with
      `max = 1000` the width is one byte, so 256 .. 1000 never come out of
      `GetRandomInt(0, 1000)` */
  lemma NarrowWidthMissesLargeValues(g: Geometry, c: Cache, min: int, max: int, response: Response)
    requires Valid(g, c)
    requires IsInt64(min) && 0 <= max <= MAX_ROUNDED && min <= max
    ensures GetRandomInt(g, c, min, max, response).result.Ok? ==>
              GetRandomInt(g, c, min, max, response).result.value < min + Pow256(ByteWidth(max))
  {
    var w := ByteWidth(max);
    var step := Take(g, c, w, response);
    if step.result.Ok? {
      var bytes := step.result.value;
      assert |bytes| == w;
      RangeSizeZero(min, max);
      assert GetRandomInt(g, c, min, max, response).result == Ok(Derive(bytes, min, max));
      DeriveBelow(bytes, min, max);
    }
  }

  /** A derived value is below min + 256^|bytes|, whether or not the range
      size overflows */
  lemma DeriveBelow(bytes: seq<Byte>, min: int, max: int)
    requires |bytes| < WORD
    requires IsInt64(min) && IsInt64(max) && min <= max && RangeSize(min, max) != 0
    ensures Derive(bytes, min, max) < min + Pow256(|bytes|)
  {
    DeriveFacts(bytes);
    BigEndianBound(bytes);
    GoRemAtMost(BigEndian(bytes), RangeSize(min, max));
    ReduceInRange(BigEndian(bytes), min, max);
  }

  /** The concrete case: for max = 1000 the width is a single byte */
  lemma ThousandGetsOneByte()
    ensures ByteWidth(1000) == 1 && Pow256(1) == 256
  {
    ByteWidthTable(1000);
  }

  /** The width the sizing evidently intends: the fewest bytes, at least one,
      whose values reach max */
  function CoveringWidth(max: int): (w: nat)
    requires 0 <= max <= MAX_ROUNDED
    ensures 1 <= w <= 5
    ensures max < Pow256(w)
    ensures w == 1 || Pow256(w - 1) <= max
  {
    if max < 0x100 then 1
    else if max < 0x1_0000 then 2
    else if max < 0x100_0000 then 3
    else if max < 0x1_0000_0000 then 4
    else 5
  }

  /** `GetRandomInt` with the covering width in place of Go's truncated one */
  function GetRandomIntCorrected(g: Geometry, c: Cache, min: int, max: int, response: Response): (r: Step<int>)
    requires Valid(g, c)
    requires IsInt64(min) && 0 <= max <= MAX_ROUNDED
    ensures Valid(g, r.cache)
    ensures r.result.Ok? && min <= max ==> min <= r.result.value <= max
    ensures r.result.Err? <==> Take(g, c, CoveringWidth(max), response).result.Err? || min == max + 1
  {
    RangeSizeZero(min, max);
    var step := Take(g, c, CoveringWidth(max), response);
    match step.result
    case Err(e) => Step(step.cache, Err(e))
    case Ok(bytes) =>
      if RangeSize(min, max) == 0 then Step(step.cache, Err(DivideByZero))
      else Step(step.cache, Ok(Derive(bytes, min, max)))
  }

  /** With the covering width every value of a non-negative range is the
      reduction of some draw: the encoding of its offset from min */
  lemma CorrectedReachesEveryValue(min: int, max: int, v: int)
    requires 0 <= min <= v <= max <= MAX_ROUNDED
    ensures Derive(Encode(v - min, CoveringWidth(max)), min, max) == v
  {
    ReachesWithWidth(min, max, v, CoveringWidth(max));
  }

  /** Any width of fewer than eight bytes whose values reach max - min
      serves v - min, which the reduction maps back to v */
  lemma ReachesWithWidth(min: int, max: int, v: int, w: nat)
    requires 0 <= min <= v <= max <= MAX_ROUNDED
    requires w < WORD && max - min < Pow256(w)
    ensures Derive(Encode(v - min, w), min, max) == v
  {
    var bytes := Encode(v - min, w);
    DecodeEncode(v - min, w);
    DeriveValue(bytes, min, max);
    SmallRemainder(v - min, max - min + 1);
  }

  lemma SmallRemainder(a: nat, m: nat)
    requires a < m
    ensures a % m == a
  {
  }

  /** ... and a take that serves that encoding makes the corrected call
      return exactly v */
  lemma CorrectedCallReturns(g: Geometry, c: Cache, min: int, max: int, v: int, response: Response)
    requires Valid(g, c)
    requires 0 <= min <= v <= max <= MAX_ROUNDED
    requires Take(g, c, CoveringWidth(max), response).result == Ok(Encode(v - min, CoveringWidth(max)))
    ensures GetRandomIntCorrected(g, c, min, max, response).result == Ok(v)
  {
    CorrectedReachesEveryValue(min, max, v);
  }
}
